=== FILE: README.md ===
# Line-protocol user server: a Dafny model of `Server`

This project models the decision logic of the `Server` class in `serveur.py`,
a small TCP service. A client sends text lines. The server answers user-account
lookups from an in-memory user table and a static options table. It counts
requests per IP address in a 5-second window, bans addresses that exceed the
limit, and refuses connections from banned addresses or when the connection
registry is full.

The model has three modules, one per concern of the class:

- `Text` (`text.dfy`) holds the Python string operations the server depends on.
  These are `str.split()` (runs of Unicode whitespace, as `str.isspace()`
  defines it), `"//".join` with its inverse `str.split("//")`, and `str(n)` for
  an integer with its inverse. Each comes with its round-trip lemma.
- `Protocol` (`protocol.dfy`) holds `authenticate` and `handle_request` as pure
  functions. `handle_request` returns `Reply(text)` or `Fault`. A `Fault` stands
  for every exception the Python code raises there and does not catch:
  - a tuple unpacking of the wrong length;
  - a missing user or option key;
  - `args[0]` on an empty list;
  - the call of the undefined `send_file`.

  The handler's catch-all then closes the connection. The user table keeps the
  dictionary's key order, because `GET-USER-LIST` exposes it.
- `ServerCore` (`server.dfy`) holds a `Server` class with the five maps and
  counters of the Python object, and one method per `with self.lock` block or
  loop:
  - `RecordRequest` is the locked counting step;
  - `Reset` is one pass of `reset_request_counts`;
  - `AcceptOne` and `AcceptClients` are the admission checks and the listener loop;
  - `HandleClient` is the per-connection loop with its registry cleanup;
  - the constructor performs the administrator bootstrap.

  Each method is tied to a pure function (`CountRequest`, `Admit`/`AcceptAll`,
  `Serve`), and the counting, banning and capacity properties are proved as
  lemmas about those functions. `Serve` takes the dispatcher's outcome for
  each message as a sequence, `Answers`. A message reaches `handle_request`
  only after the counting step allowed it, and an allowed step leaves the ban
  table unchanged, so every dispatched message of a connection is answered
  against the ban table the connection started with.

The model follows the code, including these behaviours a reader may not
expect:

- A ban never expires where it matters. Admission (`serveur.py:143`) and
  `handle_request` (`serveur.py:99`) test only whether the address is present
  in `banned_ips`, and nothing ever removes an entry. Only the test at the start
  of `handle_client` (`serveur.py:161`) compares the ban's age with `ban_time`
  (`StaleBanStillRefused`, `RateBanIsPermanent`).
- The first token is the command. A line such as `u1 wrongpw GET-USER-LIST`,
  the shape `client.py` sends, gets `"Invalid request."`, not the
  credential-failure text (`UserFirstListRequest`, `ClientStyleRequest`).
- A wrong number of arguments, an unknown `GET-USER-POINTS` target and a
  missing or unknown option do not produce an error reply. The code raises, and
  the connection is closed (`WrongArityFaults`, `UserPointsReply`,
  `OptionsReply`).
- The early return for a recently banned address at `serveur.py:161-165` skips
  the registry cleanup at `serveur.py:188-190`, so the address stays registered
  (`Server.HandleClient`).
- Splitting the `GET-USER-LIST` reply on `"//"` gives back the ids only under
  two conditions. No id may contain `"//"`, and no id but the last may end in
  `'/'` (`UserListReply`, `TrailingSlashBreaksSplit`). The reply never comes
  from an empty table, because `authenticate` needs a registered id. Apart from
  the server, `"//".join([])` is `""`, and `"".split("//")` is `[""]`, not `[]`
  (`EmptyListSplitsToOnePiece`).

## Model

| member | source | states |
|---|---|---|
| `Text.Split` | serveur.py:103 | every token that `request.strip().split()` yields is non-empty and contains no whitespace |
| `Text.Word` | serveur.py:103 | a token is the longest whitespace-free prefix: it is a prefix, it has no whitespace, and it is followed by whitespace or the end of the line |
| `Text.SplitEmptyIff` | serveur.py:102-105 | a line splits into no tokens exactly when every character is whitespace, which is the unpacking failure that `handle_request` catches |
| `Text.SplitJoinSpaced` | serveur.py:103 | splitting tokens joined by single spaces gives back the same tokens |
| `Text.SplitJoinSlashes` | serveur.py:128 | splitting `"//".join(ids)` on `"//"` gives back `ids`, when no id contains `"//"` and no id but the last ends in `'/'` |
| `Text.TrailingSlashBreaksSplit` | serveur.py:128 | counterexample: the ids `["a/", "b"]` join to `"a///b"`, which splits into `["a", "/b"]` |
| `Text.EmptyListSplitsToOnePiece` | serveur.py:128 | a fact about the string operations alone, since the server never joins an empty table: `"//".join([])` is `""`, and splitting `""` on `"//"` gives `[""]`, one empty piece |
| `Text.JoinSlashes` | serveur.py:128 | `"//".join(ids)`: the empty list gives `""`; otherwise the text starts with the first id, followed by `"//"` when more ids follow |
| `Text.IntToDecimal` | serveur.py:122 | `str(n)` is non-empty, starts with `'-'` exactly when `n` is negative, and the rest (all of it when `n >= 0`) is decimal digits |
| `Text.NatToDecimal` | serveur.py:122 | `str(n)` for `n >= 0` is non-empty, all digits, and has no leading zero |
| `Text.DecimalRoundTrip` | serveur.py:122 | `str(points)` is a single token, and reading it back gives `points`, negative values included |
| `Protocol.Authenticate` | serveur.py:93-94 | true exactly when the id is a key of `users` and its record's `mdp` equals the password character for character |
| `Protocol.AuthenticateExact` | serveur.py:93-94 | a registered id accepts its stored `mdp` and no other password, and an unknown id accepts none |
| `Protocol.Dispatch` | serveur.py:107-135 | a `Fault` only comes from one of the five command names; for the four password commands with the right arity, failed authentication gives the credential-failure reply |
| `Protocol.HandleRequest` | serveur.py:96-135 | a banned address gets `"IP banned."`; a `Fault` only comes from a non-banned address whose first token is one of the five commands |
| `Protocol.BannedIpAnswered` | serveur.py:99-100 | for a banned address, every line is answered `"IP banned."` before any parsing, whatever the ban's age |
| `Protocol.BlankRequest` | serveur.py:102-105 | a line of whitespace only is answered `"Invalid request format."` |
| `Protocol.UnknownCommand` | serveur.py:107-135 | a first token that is not one of the five exact command names is answered `"Invalid request."` |
| `Protocol.ClientStyleRequest` | client.py:28-38 | for user names, passwords and further arguments that are non-empty and hold no whitespace, the client's `username password GET ...` lines are answered `"Invalid request."` unless the user name is itself a command name |
| `Protocol.UserFirstListRequest` | serveur.py:103-135 | the line `u1 wrongpw GET-USER-LIST`, its three tokens joined by single spaces, is answered `"Invalid request."` |
| `Protocol.CredentialFailureUniform` | serveur.py:107-129 | for GET-USER-DATA, GET-PROFIL-PHOTO, GET-USER-POINTS and GET-USER-LIST with the right arity, failed authentication gives one reply, `"Invalid username or password."`, whether the id is unknown or the password is wrong |
| `Protocol.WrongArityFaults` | serveur.py:107-126 | for those four commands, the wrong number of arguments raises before any password is checked |
| `Protocol.UserListReply` | serveur.py:125-128 | with valid credentials, the GET-USER-LIST reply split on `"//"` is the key sequence of `users` in dictionary order, so it holds every registered id exactly once |
| `Protocol.UserPointsReply` | serveur.py:119-123 | with valid credentials, an unknown target raises; a known target gets one token that reads back as its `points` |
| `Protocol.UserDataReply` | serveur.py:107-111 | with valid credentials, GET-USER-DATA answers with the serialised record of the authenticated id |
| `Protocol.ProfilePhotoFaults` | serveur.py:113-117 | with valid credentials, GET-PROFIL-PHOTO always raises |
| `Protocol.OptionsReply` | serveur.py:131-133 | GET-OPTIONS needs no credentials, answers with the value of its first argument and ignores the others; no argument or an unknown option raises |
| `ServerCore.CountRequestSpec` | serveur.py:175-180 | the locked counting step raises the count of `ip` by one and leaves every other address's count alone; it allows the message exactly when the new count is at most the limit; otherwise it bans `ip` from `now`, and when it allows the message the ban table is unchanged |
| `ServerCore.Serve` | serveur.py:169-186 | the handler loop as a function of the inbox and the dispatcher's answers: it never counts more messages than the inbox holds, and it sends at most one line per counted message |
| `ServerCore.ServeCounts` | serveur.py:175-176 | each message that reaches the lock raises `request_counts[ip]` by exactly one, and no other address's count changes |
| `ServerCore.ServeBans` | serveur.py:177-180 | `banned_ips` changes only when the loop ends for the rate limit; then the count exceeds the limit and only `ip` is set, to the time of the message that crossed the limit |
| `ServerCore.AnswerAt` | serveur.py:182 | the answer to the `k`-th message is `handle_request` applied to that message's text |
| `ServerCore.ServeReplies` | serveur.py:169-186 | the lines sent are the reply texts of the first answers plus `"\n"`, in message order; a message that is refused or raises gets no line; no more than `rate_limit` messages per window are answered |
| `ServerCore.ServeEnds` | serveur.py:169-186 | the loop stops only for one of three reasons: the peer closed, the rate limit, or a raise in `handle_request`. It ends for the peer only at the first empty message or at the end of the inbox; any other exit happens on a non-empty message. The limit is tested before dispatch: a fault exit happens on a `Fault` answer while the count is still within the limit, and the loop ends for the rate exactly when the count of `ip` exceeds the limit |
| `ServerCore.ServeWithinLimit` | serveur.py:169-186 | when every message is non-empty and answered and the window has room for all of them, every message gets its reply in order, the loop ends for the peer, and nobody is banned |
| `ServerCore.ServeTripsBan` | serveur.py:175-180 | starting from count `c <= rate_limit`, with every message answered, exactly `rate_limit - c` messages are answered; the next one is refused and bans the address at its own time |
| `ServerCore.BannedAt` | serveur.py:161 | the test at the start of `handle_client` holds only for an address in `banned_ips`; a ban made at the current moment makes the test refuse the address exactly when `ban_time > 0` |
| `ServerCore.Admit` | serveur.py:143-152 | a connection is rejected as banned exactly when its address is in `banned_ips`, and admitted exactly when the address is not banned and the registry holds fewer than `max_connections` entries |
| `ServerCore.AcceptAll` | serveur.py:137-158 | the listener loop gives one result per accepted connection, and every connection from a banned address is rejected as banned |
| `ServerCore.RateBanIsPermanent` | serveur.py:143-146 | after a rate-limit ban, admission refuses the address and `handle_request` answers `"IP banned."`, whatever the clock says |
| `ServerCore.StaleBanStillRefused` | serveur.py:161 | a ban older than `ban_time` passes the test at the start of `handle_client`, but admission and `handle_request` still refuse the address |
| `ServerCore.RegisterWithinCapacity` | serveur.py:148-154 | one admission step keeps `len(clients) <= max_connections` |
| `ServerCore.AcceptAllSafe` | serveur.py:137-158 | the listener loop keeps `len(clients) <= max_connections`; the result is `RejectedBanned` exactly when the address is banned; it never drops a registered address; every admitted address is registered afterwards |
| `ServerCore.NewUser` | serveur.py:80 | the record `create_user` writes holds the given name, id, password and status, with `points` and `xp` at 0 |
| `ServerCore.AdminTable` | serveur.py:27-29 | the table read back after the bootstrap is well formed and its only key, in order, is `"0001"` |
| `ServerCore.BootstrapAdmin` | serveur.py:27-29 | the bootstrap table holds exactly one record, `{"admin", "0001", "adminpass", "admin", points 0, xp 0}`, and only `("0001", "adminpass")` authenticates |
| `ServerCore.BootstrapRequests` | serveur.py:75-80 | after bootstrap, the administrator's GET-USER-LIST returns `"0001"`; its GET-USER-POINTS on itself returns `"0"`, the points `create_user` starts with |
| `ServerCore.Server.constructor` | serveur.py:10-29 | a new server is running with empty registry, ban and count maps; its user table is the loaded one, or the administrator table when the loaded one is empty |
| `ServerCore.Server.Reset` | serveur.py:69-73 | the reset empties `request_counts` and touches nothing else |
| `ServerCore.Server.Stop` | serveur.py:193-195 | stopping clears `running` |
| `ServerCore.Server.RecordRequest` | serveur.py:175-180 | the count for `ip` rises by one; the request is allowed exactly when the new count is at most `rate_limit`; otherwise `banned_ips[ip]` becomes `now` |
| `ServerCore.Server.AcceptOne` | serveur.py:143-154 | admission checks the ban first, then capacity, then registers `clients[ip]`, overwriting any earlier entry; the capacity invariant is preserved |
| `ServerCore.Server.AcceptClients` | serveur.py:137-158 | the listener loop's results and registry are those of `AcceptAll`, and the capacity invariant is preserved |
| `ServerCore.Server.ServeMessages` | serveur.py:169-186 | the receive-count-dispatch loop sends exactly the lines of `Serve`, stops for the reason `Serve` gives, and leaves the count and ban tables as `Serve` computes them, with every message answered by `handle_request` against the starting ban table |
| `ServerCore.Server.HandleClient` | serveur.py:160-191 | a recent ban refuses the connection and leaves the registry entry in place; otherwise the sent lines, the exit reason and the count and ban tables are those of `Serve`, and only `ip` is removed from `clients` |

## Left out

- Sockets are not modelled: `bind`, `listen`, `accept`, `recv(4096)`, `send` and `close`. A handler consumes a given sequence of received chunks, and an empty chunk or the end of the sequence stands for the peer closing. Chunking, UTF-8 decoding errors and send failures are not modelled.
- Threads and the lock are not modelled. Each `with self.lock` block is one atomic method, and the model covers sequential runs only. Concurrent handlers that interleave with each other or with the reset thread are not covered.
- ServerCore.Server.HandleClient: a connection is served without a `Reset` between its messages, so one modelled connection lies within a single 5-second window; the bound of at most `rate_limit` answered messages therefore covers the whole connection, whereas the real reset thread may empty the counter mid-connection.
- `time.time()` is a float; here it is an integer parameter. The reset thread's `time.sleep(5)` becomes an explicit `Reset` call.
- `load_users`, `load_options` and the file work of `create_user` (directories, profile image, log file) are file and JSON I/O. The constructor receives the loaded tables. Bootstrap is modelled as reading back exactly the record `create_user` writes.
- User records are assumed well formed: `mdp` is a string and `points` and `xp` are integers. A record without `mdp` would make `authenticate` raise, which is not modelled.
- Option values are assumed to be strings. A non-string value would raise at the `+ "\n"` in `handle_client`, which is not modelled.
- `Protocol.RecordJson` gives the `json.dumps` text for the key order that `create_user` writes, without string escaping.
- `stop()` is modelled only as clearing `running`. Its `SERVER STOP` broadcast and the closing of the listener are I/O.
- The `except` branch of `accept_clients`, which stops the listener on a socket error, is left out.
- Logging (`print`) is left out.
- Beyond the request shape it sends, `client.py` is not part of this model.

=== FILE: protocol.dfy ===
/**
 * The request dispatcher of the server: `Server.authenticate` and
 * `Server.handle_request`. Both only read the user table, the options and the
 * ban table, so they are functions here. Where the Python code raises (a
 * tuple unpacking of the wrong length, a missing dictionary key, an index out
 * of range, the call of an undefined method), the outcome is `Fault`: nothing
 * in `handle_request` catches it, and the handler loop closes the connection.
 */
module Protocol {
  import opened Text

  /** A user record as `create_user` writes it and `load_users` reads it back. */
  datatype UserRecord = UserRecord(
    name: string,
    idUser: string,
    mdp: string,      // the password, compared verbatim
    status: string,   // "admin" for the bootstrap account
    points: int,
    xp: int)

  /**
   * The `users` dictionary: `ids` is its key order (Python dictionaries keep
   * insertion order, which `"//".join(users.keys())` exposes), `records` its
   * contents.
   */
  datatype UserTable = UserTable(ids: seq<string>, records: map<string, UserRecord>)
  {
    /** What a Python dictionary built by `users[data["id_user"]] = data` always satisfies. */
    ghost predicate Valid()
    {
      && (forall i, j :: 0 <= i < j < |ids| ==> ids[i] != ids[j])
      && (forall id :: id in records <==> id in ids)
      && (forall id :: id in records ==> records[id].idUser == id)
    }

    function Lookup(id: string): (r: Option<UserRecord>)
      ensures r.Some? <==> id in records
      ensures r.Some? ==> r.value == records[id]
    {
      if id in records then Some(records[id]) else None
    }
  }

  /** What the handler does with one message: send a reply, or fail and close. */
  datatype Outcome = Reply(text: string) | Fault

  const IpBanned := "IP banned."
  const InvalidFormat := "Invalid request format."
  const InvalidCredentials := "Invalid username or password."
  const InvalidRequest := "Invalid request."

  const GetUserData := "GET-USER-DATA"
  const GetProfilPhoto := "GET-PROFIL-PHOTO"
  const GetUserPoints := "GET-USER-POINTS"
  const GetUserList := "GET-USER-LIST"
  const GetOptions := "GET-OPTIONS"

  const Commands: set<string> := {GetUserData, GetProfilPhoto, GetUserPoints, GetUserList, GetOptions}

  /** `authenticate(id_user, password)`. */
  function Authenticate(users: UserTable, id: string, password: string): (ok: bool)
    ensures ok <==> id in users.records && users.records[id].mdp == password
  {
    match users.Lookup(id)
    case Some(r) => r.mdp == password
    case None => false
  }

  /** A JSON string literal; escaping of quotes, backslashes and non-ASCII is not modelled. */
  function JsonString(s: string): string
  {
    "\"" + s + "\""
  }

  /** `json.dumps(record)` for a record in the key order `create_user` writes. */
  function RecordJson(r: UserRecord): string
  {
    "{\"name\": " + JsonString(r.name)
    + ", \"id_user\": " + JsonString(r.idUser)
    + ", \"mdp\": " + JsonString(r.mdp)
    + ", \"status\": " + JsonString(r.status)
    + ", \"points\": " + IntToDecimal(r.points)
    + ", \"xp\": " + IntToDecimal(r.xp) + "}"
  }

  /** The command branches of `handle_request`, once the line has been split. */
  function Dispatch(users: UserTable, options: map<string, string>, cmd: string, args: seq<string>): (o: Outcome)
    ensures o == Fault ==> cmd in Commands
    ensures NeedsCredentials(cmd) && |args| == Arity(cmd) && !Authenticate(users, args[0], args[1]) ==>
      o == Reply(InvalidCredentials)
  {
    if cmd == GetUserData then
      if |args| != 2 then Fault
      else if Authenticate(users, args[0], args[1]) then Reply(RecordJson(users.records[args[0]]))
      else Reply(InvalidCredentials)
    else if cmd == GetProfilPhoto then
      // `send_file` is not defined on the class: calling it raises.
      if |args| != 2 then Fault
      else if Authenticate(users, args[0], args[1]) then Fault
      else Reply(InvalidCredentials)
    else if cmd == GetUserPoints then
      if |args| != 3 then Fault
      else if !Authenticate(users, args[0], args[1]) then Reply(InvalidCredentials)
      else if args[2] !in users.records then Fault
      else Reply(IntToDecimal(users.records[args[2]].points))
    else if cmd == GetUserList then
      if |args| != 2 then Fault
      else if Authenticate(users, args[0], args[1]) then Reply(JoinSlashes(users.ids))
      else Reply(InvalidCredentials)
    else if cmd == GetOptions then
      if |args| == 0 || args[0] !in options then Fault
      else Reply(options[args[0]])
    else Reply(InvalidRequest)
  }

  /** `handle_request(request, ip)`. */
  function HandleRequest(users: UserTable, options: map<string, string>, banned: map<string, int>,
                         request: string, ip: string): (o: Outcome)
    ensures ip in banned ==> o == Reply(IpBanned)
    ensures o == Fault ==> ip !in banned && |Split(request)| > 0 && Split(request)[0] in Commands
  {
    if ip in banned then Reply(IpBanned)
    else
      var toks := Split(request);
      if toks == [] then Reply(InvalidFormat)
      else Dispatch(users, options, toks[0], toks[1..])
  }

  // ---------------------------------------------------------------------------
  // Properties of authenticate
  // ---------------------------------------------------------------------------

  /** Exact comparison: a registered id accepts its stored password and no other, an unknown id none. */
  lemma AuthenticateExact(users: UserTable, id: string, p: string, q: string)
    ensures Authenticate(users, id, p) && Authenticate(users, id, q) ==> p == q
    ensures id !in users.records ==> !Authenticate(users, id, p)
    ensures id in users.records ==> Authenticate(users, id, users.records[id].mdp)
  {
  }

  // ---------------------------------------------------------------------------
  // Properties of handle_request
  // ---------------------------------------------------------------------------

  /** A banned address gets "IP banned." for every line, whatever the ban's age. */
  lemma BannedIpAnswered(users: UserTable, options: map<string, string>, banned: map<string, int>,
                         request: string, ip: string)
    requires ip in banned
    ensures HandleRequest(users, options, banned, request, ip) == Reply(IpBanned)
  {
  }

  /** A line made only of whitespace is answered "Invalid request format.". */
  lemma BlankRequest(users: UserTable, options: map<string, string>, banned: map<string, int>,
                     request: string, ip: string)
    requires ip !in banned
    requires forall i :: 0 <= i < |request| ==> IsSpace(request[i])
    ensures HandleRequest(users, options, banned, request, ip) == Reply(InvalidFormat)
  {
    SplitEmptyIff(request);
  }

  /** A first token that is not one of the five command names is answered "Invalid request.". */
  lemma UnknownCommand(users: UserTable, options: map<string, string>, banned: map<string, int>,
                       request: string, ip: string)
    requires ip !in banned
    requires Split(request) != [] && Split(request)[0] !in Commands
    ensures HandleRequest(users, options, banned, request, ip) == Reply(InvalidRequest)
  {
  }

  /**
   * The requests `client.py` builds put the user name first, so the server
   * answers "Invalid request." to them unless the name is itself a command.
   */
  lemma ClientStyleRequest(users: UserTable, options: map<string, string>, banned: map<string, int>,
                           user: string, password: string, rest: seq<string>, ip: string)
    requires ip !in banned
    requires IsToken(user) && IsToken(password) && AllTokens(rest)
    requires user !in Commands
    ensures HandleRequest(users, options, banned, JoinSpaced([user, password] + rest), ip) == Reply(InvalidRequest)
  {
    SplitJoinSpaced([user, password] + rest);
    UnknownCommand(users, options, banned, JoinSpaced([user, password] + rest), ip);
  }

  /** "u1 wrongpw GET-USER-LIST" is answered "Invalid request.", not with a credential failure. */
  lemma UserFirstListRequest(users: UserTable, options: map<string, string>, banned: map<string, int>, ip: string)
    requires ip !in banned
    ensures HandleRequest(users, options, banned, JoinSpaced(["u1", "wrongpw", GetUserList]), ip) == Reply(InvalidRequest)
  {
    UserListIsToken();
    assert IsToken("u1") && IsToken("wrongpw");
    assert ["u1", "wrongpw"] + [GetUserList] == ["u1", "wrongpw", GetUserList];
    ClientStyleRequest(users, options, banned, "u1", "wrongpw", [GetUserList], ip);
  }

  lemma UserListIsToken()
    ensures IsToken(GetUserList)
  {
  }

  lemma UserPointsIsToken()
    ensures IsToken(GetUserPoints)
  {
  }

  /** The commands that check a password before doing anything else. */
  predicate NeedsCredentials(cmd: string)
  {
    cmd in {GetUserData, GetProfilPhoto, GetUserPoints, GetUserList}
  }

  function Arity(cmd: string): nat
  {
    if cmd == GetUserPoints then 3 else 2
  }

  /**
   * With the right number of arguments, failed authentication gets one and the
   * same answer whether the id is unknown or the password wrong.
   */
  lemma CredentialFailureUniform(users: UserTable, options: map<string, string>, banned: map<string, int>,
                                 request: string, ip: string, cmd: string, args: seq<string>)
    requires ip !in banned
    requires Split(request) == [cmd] + args
    requires NeedsCredentials(cmd) && |args| == Arity(cmd)
    requires !Authenticate(users, args[0], args[1])
    ensures HandleRequest(users, options, banned, request, ip) == Reply(InvalidCredentials)
  {
    assert Split(request)[1..] == args;
  }

  /** With the wrong number of arguments the unpacking raises, before any password is checked. */
  lemma WrongArityFaults(users: UserTable, options: map<string, string>, banned: map<string, int>,
                         request: string, ip: string, cmd: string, args: seq<string>)
    requires ip !in banned
    requires Split(request) == [cmd] + args
    requires NeedsCredentials(cmd) && |args| != Arity(cmd)
    ensures HandleRequest(users, options, banned, request, ip) == Fault
  {
    assert Split(request)[1..] == args;
  }

  /**
   * GET-USER-LIST with valid credentials: the reply, split on "//", is the key
   * sequence of `users` in dictionary order, hence every registered id exactly
   * once, provided the ids survive the delimiter.
   */
  lemma UserListReply(users: UserTable, options: map<string, string>, banned: map<string, int>,
                      request: string, ip: string, id: string, password: string)
    requires users.Valid() && SeparableIds(users.ids)
    requires ip !in banned
    requires Split(request) == [GetUserList, id, password]
    requires Authenticate(users, id, password)
    ensures HandleRequest(users, options, banned, request, ip).Reply?
    ensures var parts := SplitSlashes(HandleRequest(users, options, banned, request, ip).text);
      && parts == users.ids
      && (forall k :: k in parts <==> k in users.records)
      && (forall i, j :: 0 <= i < j < |parts| ==> parts[i] != parts[j])
  {
    assert Split(request)[1..] == [id, password];
    assert id in users.ids;
    SplitJoinSlashes(users.ids);
  }

  /**
   * GET-USER-POINTS with valid credentials: the reply is one token that reads
   * back as the target's points; an unknown target raises instead.
   */
  lemma UserPointsReply(users: UserTable, options: map<string, string>, banned: map<string, int>,
                        request: string, ip: string, id: string, password: string, target: string)
    requires ip !in banned
    requires Split(request) == [GetUserPoints, id, password, target]
    requires Authenticate(users, id, password)
    ensures target !in users.records ==> HandleRequest(users, options, banned, request, ip) == Fault
    ensures target in users.records ==>
      && HandleRequest(users, options, banned, request, ip).Reply?
      && IsToken(HandleRequest(users, options, banned, request, ip).text)
      && ParseInt(HandleRequest(users, options, banned, request, ip).text) == Some(users.records[target].points)
  {
    assert Split(request)[1..] == [id, password, target];
    if target in users.records {
      DecimalRoundTrip(users.records[target].points);
    }
  }

  /** GET-USER-DATA with valid credentials answers with the caller's own record, not another's. */
  lemma UserDataReply(users: UserTable, options: map<string, string>, banned: map<string, int>,
                      request: string, ip: string, id: string, password: string)
    requires ip !in banned
    requires Split(request) == [GetUserData, id, password]
    requires Authenticate(users, id, password)
    ensures HandleRequest(users, options, banned, request, ip) == Reply(RecordJson(users.records[id]))
  {
    assert Split(request)[1..] == [id, password];
  }

  /** GET-PROFIL-PHOTO with valid credentials always raises (`send_file` does not exist). */
  lemma ProfilePhotoFaults(users: UserTable, options: map<string, string>, banned: map<string, int>,
                           request: string, ip: string, id: string, password: string)
    requires ip !in banned
    requires Split(request) == [GetProfilPhoto, id, password]
    requires Authenticate(users, id, password)
    ensures HandleRequest(users, options, banned, request, ip) == Fault
  {
    assert Split(request)[1..] == [id, password];
  }

  /**
   * GET-OPTIONS needs no credentials, looks up its first argument and ignores
   * the rest; no argument or an unknown option raises.
   */
  lemma OptionsReply(users: UserTable, options: map<string, string>, banned: map<string, int>,
                     request: string, ip: string, args: seq<string>)
    requires ip !in banned
    requires Split(request) == [GetOptions] + args
    ensures HandleRequest(users, options, banned, request, ip) ==
      if |args| > 0 && args[0] in options then Reply(options[args[0]]) else Fault
  {
    assert Split(request)[1..] == args;
  }
}

=== FILE: server.dfy ===
/**
 * The stateful part of `Server`: the per-address request counter and the ban
 * table (updated together under the lock in `handle_client`), the window
 * reset, connection admission in `accept_clients`, the connection registry,
 * and the administrator bootstrap of `__init__`.
 *
 * Threads, sockets and the clock are not modelled: each `with self.lock`
 * block is one method call, a handler consumes a given sequence of received
 * messages, each stamped with the clock reading `time.time()` would give,
 * and the reset thread's 5-second sleep becomes an explicit call to `Reset`.
 */
module ServerCore {
  import opened Text
  import opened Protocol

  /** One chunk returned by `client.recv(4096).decode()`, and the clock when it is counted. */
  datatype Packet = Packet(data: string, at: int)

  /** Why a handler's loop ended. */
  datatype Exit =
    | PeerClosed     // `recv` returned no data (here: an empty message or the end of the inbox)
    | RateExceeded   // the count went over the limit: the address is now banned
    | Faulted        // `handle_request` raised; the catch-all closes the connection
    | Stopped        // `running` was already false
    | RefusedBanned  // the age-checked ban test at the start of `handle_client`

  /** What `accept_clients` does with one incoming connection. */
  datatype Admission = Admitted | RejectedBanned | RejectedFull

  /** A connection `accept` returned: the peer address and an opaque handle for the socket. */
  datatype Arrival = Arrival(ip: string, conn: nat)

  const BannedOnConnect := "You are banned.\n"

  /** The counter of `ip` in a `defaultdict(int)`. */
  function Count(counts: map<string, nat>, ip: string): nat
  {
    if ip in counts then counts[ip] else 0
  }

  // ---------------------------------------------------------------------------
  // The locked counting step of handle_client
  // ---------------------------------------------------------------------------

  datatype Counted = Counted(counts: map<string, nat>, banned: map<string, int>, allowed: bool)

  /** `request_counts[ip] += 1`, then the ban when the new count exceeds `limit`. */
  function CountRequest(counts: map<string, nat>, banned: map<string, int>, limit: int,
                        ip: string, now: int): (r: Counted)
  {
    var c := Count(counts, ip) + 1;
    if c > limit then Counted(counts[ip := c], banned[ip := now], false)
    else Counted(counts[ip := c], banned, true)
  }

  /**
   * The counting step raises the address's counter by one, lets the message
   * through exactly when the new count is within `limit`, and otherwise bans
   * the address from `now`.
   */
  lemma CountRequestSpec(counts: map<string, nat>, banned: map<string, int>, limit: int, ip: string, now: int)
    ensures var r := CountRequest(counts, banned, limit, ip, now);
      && Count(r.counts, ip) == Count(counts, ip) + 1
      && (forall other :: other != ip ==> Count(r.counts, other) == Count(counts, other))
      && (r.allowed <==> Count(r.counts, ip) <= limit)
      && r.banned == if r.allowed then banned else banned[ip := now]
  {
  }

  // ---------------------------------------------------------------------------
  // The loop of handle_client, as a function of its inputs
  // ---------------------------------------------------------------------------

  /**
   * The result of serving a connection: the lines sent, why the loop ended,
   * how many messages went through the counting step, and the final counter
   * and ban tables.
   */
  datatype Session = Session(sent: seq<string>, exit: Exit, consumed: nat,
                             counts: map<string, nat>, banned: map<string, int>)

  /**
   * What `handle_request` answers to each message of `inbox`, against the ban
   * table `banned`. A message the loop dispatches was allowed by the counting
   * step, which leaves the ban table as it was, so every dispatched message of
   * a session is answered against the table the session started with.
   */
  function Answers(users: UserTable, options: map<string, string>, banned: map<string, int>,
                   ip: string, inbox: seq<Packet>): (r: seq<Outcome>)
    ensures |r| == |inbox|
    decreases |inbox|
  {
    if |inbox| == 0 then []
    else [HandleRequest(users, options, banned, inbox[0].data, ip)] + Answers(users, options, banned, ip, inbox[1..])
  }

  /** The `i`-th answer is `handle_request`'s outcome for the `i`-th message. */
  lemma {:induction false} AnswerAt(users: UserTable, options: map<string, string>, banned: map<string, int>,
                                    ip: string, inbox: seq<Packet>, i: nat)
    requires i < |inbox|
    ensures Answers(users, options, banned, ip, inbox)[i] == HandleRequest(users, options, banned, inbox[i].data, ip)
    decreases i
  {
    if i > 0 {
      AnswerAt(users, options, banned, ip, inbox[1..], i - 1);
    }
  }

  /**
   * The loop over the messages of `inbox`, where `answers[k]` is what the
   * dispatcher returns for `inbox[k]`.
   */
  function Serve(limit: int, ip: string, counts: map<string, nat>, banned: map<string, int>,
                 inbox: seq<Packet>, answers: seq<Outcome>): (s: Session)
    requires |answers| == |inbox|
    ensures s.consumed <= |inbox| && |s.sent| <= s.consumed
    decreases |inbox|
  {
    if |inbox| == 0 || |inbox[0].data| == 0 then Session([], PeerClosed, 0, counts, banned)
    else
      var step := CountRequest(counts, banned, limit, ip, inbox[0].at);
      if !step.allowed then Session([], RateExceeded, 1, step.counts, step.banned)
      else
        match answers[0]
        case Fault => Session([], Faulted, 1, step.counts, step.banned)
        case Reply(t) =>
          var rest := Serve(limit, ip, step.counts, step.banned, inbox[1..], answers[1..]);
          rest.(sent := [t + "\n"] + rest.sent, consumed := rest.consumed + 1)
  }

  /** One step of `Serve` on the messages from index `i` on, when message `i` reaches the lock. */
  lemma ServeAt(limit: int, ip: string, counts: map<string, nat>, banned: map<string, int>,
                inbox: seq<Packet>, answers: seq<Outcome>, i: nat)
    requires |answers| == |inbox| && i < |inbox| && |inbox[i].data| > 0
    ensures var step := CountRequest(counts, banned, limit, ip, inbox[i].at);
      var s := Serve(limit, ip, counts, banned, inbox[i..], answers[i..]);
      && (!step.allowed ==> s == Session([], RateExceeded, 1, step.counts, step.banned))
      && (step.allowed && answers[i] == Fault ==> s == Session([], Faulted, 1, step.counts, step.banned))
      && (step.allowed && answers[i].Reply? ==>
            s == Resume([answers[i].text + "\n"], 1, Serve(limit, ip, step.counts, step.banned, inbox[i + 1..], answers[i + 1..])))
  {
    assert inbox[i..][0] == inbox[i] && inbox[i..][1..] == inbox[i + 1..];
    assert answers[i..][0] == answers[i] && answers[i..][1..] == answers[i + 1..];
  }

  /** A session of which `sent` has already gone out over `steps` counted messages. */
  function Resume(sent: seq<string>, steps: nat, s: Session): Session
  {
    s.(sent := sent + s.sent, consumed := steps + s.consumed)
  }

  /** Resuming after `sent` a session that itself resumes after `more`. */
  lemma ResumeResume(sent: seq<string>, steps: nat, more: seq<string>, moreSteps: nat, s: Session)
    ensures Resume(sent, steps, Resume(more, moreSteps, s)) == Resume(sent + more, steps + moreSteps, s)
  {
    assert sent + (more + s.sent) == (sent + more) + s.sent;
  }

  /** Resuming a session that sends nothing more. */
  lemma ResumeNothing(sent: seq<string>, steps: nat, s: Session)
    requires s.sent == []
    ensures Resume(sent, steps, s).sent == sent
  {
    assert sent + [] == sent;
  }

  /**
   * Counting: each message that reaches the lock raises the address's counter
   * by exactly one; no other address's counter changes.
   */
  lemma {:induction false} ServeCounts(limit: int, ip: string, counts: map<string, nat>, banned: map<string, int>,
                                       inbox: seq<Packet>, answers: seq<Outcome>)
    requires |answers| == |inbox|
    ensures var s := Serve(limit, ip, counts, banned, inbox, answers);
      && s.consumed <= |inbox|
      && s.counts == if s.consumed == 0 then counts else counts[ip := Count(counts, ip) + s.consumed]
    decreases |inbox|
  {
    if |inbox| > 0 && |inbox[0].data| > 0 {
      var step := CountRequest(counts, banned, limit, ip, inbox[0].at);
      CountRequestSpec(counts, banned, limit, ip, inbox[0].at);
      if step.allowed && answers[0].Reply? {
        ServeCounts(limit, ip, step.counts, step.banned, inbox[1..], answers[1..]);
      }
    }
  }

  /**
   * Banning: the ban table changes only when the loop ends for the rate
   * limit; then the address is banned at the time of the message that
   * crossed the limit, and only that entry changes.
   */
  lemma {:induction false} ServeBans(limit: int, ip: string, counts: map<string, nat>, banned: map<string, int>,
                                     inbox: seq<Packet>, answers: seq<Outcome>)
    requires |answers| == |inbox|
    ensures var s := Serve(limit, ip, counts, banned, inbox, answers);
      && (s.exit != RateExceeded ==> s.banned == banned)
      && (s.exit == RateExceeded ==>
            && 0 < s.consumed <= |inbox|
            && Count(counts, ip) + s.consumed > limit
            && s.banned == banned[ip := inbox[s.consumed - 1].at])
    decreases |inbox|
  {
    if |inbox| > 0 && |inbox[0].data| > 0 {
      var step := CountRequest(counts, banned, limit, ip, inbox[0].at);
      if step.allowed && answers[0].Reply? {
        ServeBans(limit, ip, step.counts, step.banned, inbox[1..], answers[1..]);
        var rest := Serve(limit, ip, step.counts, step.banned, inbox[1..], answers[1..]);
        if rest.exit == RateExceeded {
          assert inbox[1..][rest.consumed - 1] == inbox[rest.consumed];
        }
      }
    }
  }

  /**
   * Rate bound: the lines sent are the dispatcher's replies to the first
   * messages, in order, and no more than `limit` messages are answered within
   * one window.
   */
  lemma {:induction false} ServeReplies(limit: int, ip: string, counts: map<string, nat>, banned: map<string, int>,
                                        inbox: seq<Packet>, answers: seq<Outcome>)
    requires |answers| == |inbox|
    ensures var s := Serve(limit, ip, counts, banned, inbox, answers);
      && |s.sent| == (if s.exit == PeerClosed then s.consumed else s.consumed - 1)
      && (|s.sent| > 0 ==> Count(counts, ip) + |s.sent| <= limit)
      && |s.sent| <= |inbox|
      && (forall k :: 0 <= k < |s.sent| ==>
            |inbox[k].data| > 0 && answers[k].Reply? && s.sent[k] == answers[k].text + "\n")
    decreases |inbox|
  {
    if |inbox| > 0 && |inbox[0].data| > 0 {
      var step := CountRequest(counts, banned, limit, ip, inbox[0].at);
      if step.allowed && answers[0].Reply? {
        ServeReplies(limit, ip, step.counts, step.banned, inbox[1..], answers[1..]);
        ServeCounts(limit, ip, step.counts, step.banned, inbox[1..], answers[1..]);
        var rest := Serve(limit, ip, step.counts, step.banned, inbox[1..], answers[1..]);
        forall k | 1 <= k < |rest.sent| + 1
          ensures inbox[k] == inbox[1..][k - 1] && answers[k] == answers[1..][k - 1]
        {
        }
      }
    }
  }

  /**
   * Why the loop stops: it ends for the peer only at the first empty message
   * or at the end of the inbox, and otherwise on a non-empty message that the
   * limit refused or whose answer was a fault. The limit is tested before the
   * dispatcher runs: the loop ends for the rate exactly when the count went
   * over the limit, whatever the message's answer would have been.
   */
  lemma {:induction false} ServeEnds(limit: int, ip: string, counts: map<string, nat>, banned: map<string, int>,
                                     inbox: seq<Packet>, answers: seq<Outcome>)
    requires |answers| == |inbox|
    ensures var s := Serve(limit, ip, counts, banned, inbox, answers);
      && s.consumed <= |inbox|
      && (s.exit == PeerClosed || s.exit == RateExceeded || s.exit == Faulted)
      && (s.exit == PeerClosed ==> s.consumed == |inbox| || |inbox[s.consumed].data| == 0)
      && (s.exit != PeerClosed ==> 0 < s.consumed && |inbox[s.consumed - 1].data| > 0)
      && (s.exit == Faulted ==> answers[s.consumed - 1] == Fault)
      && (s.exit == Faulted ==> Count(counts, ip) + s.consumed <= limit)
      && (s.exit == RateExceeded <==> 0 < s.consumed && Count(counts, ip) + s.consumed > limit)
    decreases |inbox|
  {
    ServeCounts(limit, ip, counts, banned, inbox, answers);
    if |inbox| > 0 && |inbox[0].data| > 0 {
      var step := CountRequest(counts, banned, limit, ip, inbox[0].at);
      if step.allowed && answers[0].Reply? {
        ServeEnds(limit, ip, step.counts, step.banned, inbox[1..], answers[1..]);
        var rest := Serve(limit, ip, step.counts, step.banned, inbox[1..], answers[1..]);
        if rest.exit == PeerClosed && rest.consumed < |inbox| - 1 {
          assert inbox[rest.consumed + 1] == inbox[1..][rest.consumed];
        }
        if rest.exit != PeerClosed {
          assert inbox[rest.consumed] == inbox[1..][rest.consumed - 1];
          assert answers[rest.consumed] == answers[1..][rest.consumed - 1];
        }
      }
    }
  }

  /**
   * Within the limit, the loop stops early for nothing but a fault: when every
   * message is non-empty and answered, and the window has room for all of them,
   * every message gets its reply and the loop ends only when the peer closes.
   */
  lemma {:induction false} ServeWithinLimit(limit: int, ip: string, counts: map<string, nat>, banned: map<string, int>,
                                            inbox: seq<Packet>, answers: seq<Outcome>)
    requires |answers| == |inbox|
    requires Count(counts, ip) + |inbox| <= limit
    requires forall k :: 0 <= k < |inbox| ==> |inbox[k].data| > 0 && answers[k].Reply?
    ensures var s := Serve(limit, ip, counts, banned, inbox, answers);
      && s.exit == PeerClosed && s.consumed == |inbox| && |s.sent| == |inbox|
      && (forall k :: 0 <= k < |inbox| ==> s.sent[k] == answers[k].text + "\n")
      && s.banned == banned
    decreases |inbox|
  {
    if |inbox| > 0 {
      var step := CountRequest(counts, banned, limit, ip, inbox[0].at);
      assert step.allowed && Count(step.counts, ip) == Count(counts, ip) + 1;
      forall k | 0 <= k < |inbox| - 1
        ensures inbox[1..][k] == inbox[k + 1] && answers[1..][k] == answers[k + 1]
      {
      }
      ServeWithinLimit(limit, ip, step.counts, step.banned, inbox[1..], answers[1..]);
    }
  }

  /**
   * The message that takes the counter past `limit` is refused and bans the
   * address: when every message would be answered, a window that starts at
   * count `c <= limit` answers exactly `limit - c` messages and bans the
   * address at the time of the next one.
   */
  lemma {:induction false} ServeTripsBan(limit: int, ip: string, counts: map<string, nat>, banned: map<string, int>,
                                         inbox: seq<Packet>, answers: seq<Outcome>)
    requires |answers| == |inbox|
    requires Count(counts, ip) <= limit < Count(counts, ip) + |inbox|
    requires forall k :: 0 <= k < |inbox| ==> |inbox[k].data| > 0 && answers[k].Reply?
    ensures var s := Serve(limit, ip, counts, banned, inbox, answers);
      && s.exit == RateExceeded
      && s.consumed == limit - Count(counts, ip) + 1
      && |s.sent| == limit - Count(counts, ip)
      && s.banned == banned[ip := inbox[limit - Count(counts, ip)].at]
    decreases |inbox|
  {
    var step := CountRequest(counts, banned, limit, ip, inbox[0].at);
    if step.allowed {
      assert Count(step.counts, ip) == Count(counts, ip) + 1;
      forall k | 0 <= k < |inbox| - 1
        ensures inbox[1..][k] == inbox[k + 1] && answers[1..][k] == answers[k + 1]
      {
      }
      ServeTripsBan(limit, ip, step.counts, step.banned, inbox[1..], answers[1..]);
    }
  }

  // ---------------------------------------------------------------------------
  // Ban tests
  // ---------------------------------------------------------------------------

  /** The only ban test that looks at the ban's age: the start of `handle_client`. */
  predicate BannedAt(banned: map<string, int>, ip: string, now: int, banTime: int)
    ensures BannedAt(banned, ip, now, banTime) ==> ip in banned
    ensures ip in banned && banned[ip] == now ==> (BannedAt(banned, ip, now, banTime) <==> banTime > 0)
  {
    ip in banned && now - banned[ip] < banTime
  }

  // ---------------------------------------------------------------------------
  // accept_clients
  // ---------------------------------------------------------------------------

  /** The admission checks, in the order the listener applies them. */
  function Admit(clients: map<string, nat>, banned: map<string, int>, maxConnections: int, ip: string): (a: Admission)
    ensures a == RejectedBanned <==> ip in banned
    ensures a == Admitted <==> ip !in banned && |clients| < maxConnections
  {
    if ip in banned then RejectedBanned
    else if |clients| >= maxConnections then RejectedFull
    else Admitted
  }

  /** The registry after one admission decision. */
  function Register(clients: map<string, nat>, a: Admission, arrival: Arrival): map<string, nat>
  {
    if a == Admitted then clients[arrival.ip := arrival.conn] else clients
  }

  datatype Listened = Listened(clients: map<string, nat>, results: seq<Admission>)

  /** The listener loop over a sequence of accepted connections. */
  function AcceptAll(clients: map<string, nat>, banned: map<string, int>, maxConnections: int,
                     arrivals: seq<Arrival>): (l: Listened)
    ensures |l.results| == |arrivals|
    ensures forall k :: 0 <= k < |arrivals| && arrivals[k].ip in banned ==> l.results[k] == RejectedBanned
    decreases |arrivals|
  {
    if |arrivals| == 0 then Listened(clients, [])
    else
      var a := Admit(clients, banned, maxConnections, arrivals[0].ip);
      var rest := AcceptAll(Register(clients, a, arrivals[0]), banned, maxConnections, arrivals[1..]);
      Listened(rest.clients, [a] + rest.results)
  }

  /** Splitting the listener loop after one more arrival. */
  lemma AcceptAllResume(before: seq<Admission>, a: Admission, rest: Listened)
    ensures Listened(rest.clients, before + ([a] + rest.results)) == Listened(rest.clients, (before + [a]) + rest.results)
  {
    assert before + ([a] + rest.results) == (before + [a]) + rest.results;
  }

  /** The registry never holds more than `maxConnections` addresses (or none, when that is not positive). */
  predicate WithinCapacity(clients: map<string, nat>, maxConnections: int)
  {
    |clients| <= maxConnections || clients == map[]
  }

  /** One admission keeps the registry within capacity. */
  lemma RegisterWithinCapacity(clients: map<string, nat>, banned: map<string, int>, maxConnections: int, arrival: Arrival)
    requires WithinCapacity(clients, maxConnections)
    ensures WithinCapacity(Register(clients, Admit(clients, banned, maxConnections, arrival.ip), arrival), maxConnections)
  {
    var c := Register(clients, Admit(clients, banned, maxConnections, arrival.ip), arrival);
    if Admit(clients, banned, maxConnections, arrival.ip) == Admitted {
      assert c.Keys == clients.Keys + {arrival.ip};
      assert |c.Keys| <= |clients.Keys| + 1;
    }
  }

  /**
   * In a sequential run the listener keeps the registry within capacity,
   * refuses every banned address, and every address it admits is registered
   * afterwards (possibly under a later connection's handle).
   */
  lemma {:induction false} AcceptAllSafe(clients: map<string, nat>, banned: map<string, int>, maxConnections: int,
                                         arrivals: seq<Arrival>)
    requires WithinCapacity(clients, maxConnections)
    ensures var l := AcceptAll(clients, banned, maxConnections, arrivals);
      && |l.results| == |arrivals|
      && WithinCapacity(l.clients, maxConnections)
      && clients.Keys <= l.clients.Keys
      && (forall k :: 0 <= k < |arrivals| ==> (arrivals[k].ip in banned <==> l.results[k] == RejectedBanned))
      && (forall k :: 0 <= k < |arrivals| && l.results[k] == Admitted ==> arrivals[k].ip in l.clients)
    decreases |arrivals|
  {
    if |arrivals| > 0 {
      var a := Admit(clients, banned, maxConnections, arrivals[0].ip);
      var next := Register(clients, a, arrivals[0]);
      RegisterWithinCapacity(clients, banned, maxConnections, arrivals[0]);
      AcceptAllSafe(next, banned, maxConnections, arrivals[1..]);
      var l := AcceptAll(clients, banned, maxConnections, arrivals);
      forall k | 1 <= k < |arrivals|
        ensures arrivals[k] == arrivals[1..][k - 1] && l.results[k] == l.results[1..][k - 1]
      {
      }
    }
  }

  /**
   * A ban imposed by the rate limit is never lifted at accept time: whatever
   * the clock says, the next connection from that address is refused, and a
   * request that still gets through is answered "IP banned.".
   */
  lemma RateBanIsPermanent(users: UserTable, options: map<string, string>, limit: int, ip: string,
                           counts: map<string, nat>, banned: map<string, int>, inbox: seq<Packet>,
                           answers: seq<Outcome>, clients: map<string, nat>, maxConnections: int, request: string)
    requires |answers| == |inbox|
    requires Serve(limit, ip, counts, banned, inbox, answers).exit == RateExceeded
    ensures var s := Serve(limit, ip, counts, banned, inbox, answers);
      && Admit(clients, s.banned, maxConnections, ip) == RejectedBanned
      && HandleRequest(users, options, s.banned, request, ip) == Reply(IpBanned)
  {
    ServeBans(limit, ip, counts, banned, inbox, answers);
  }

  /**
   * The three ban tests disagree once a ban is older than `banTime`: the
   * start of `handle_client` lets the address through, while admission and
   * `handle_request` still refuse it.
   */
  lemma StaleBanStillRefused(users: UserTable, options: map<string, string>, banned: map<string, int>,
                             clients: map<string, nat>, maxConnections: int, ip: string, now: int,
                             banTime: int, request: string)
    requires ip in banned && now - banned[ip] >= banTime
    ensures !BannedAt(banned, ip, now, banTime)
    ensures Admit(clients, banned, maxConnections, ip) == RejectedBanned
    ensures HandleRequest(users, options, banned, request, ip) == Reply(IpBanned)
  {
  }

  // ---------------------------------------------------------------------------
  // Bootstrap
  // ---------------------------------------------------------------------------

  /** The record `create_user` writes: every new user starts with 0 points and 0 xp. */
  function NewUser(name: string, id: string, mdp: string, status: string): (r: UserRecord)
    ensures r.name == name && r.idUser == id && r.mdp == mdp && r.status == status
    ensures r.points == 0 && r.xp == 0
  {
    UserRecord(name, id, mdp, status, 0, 0)
  }

  const AdminId := "0001"
  const AdminPassword := "adminpass"

  /** The table `load_users` reads back after `create_user("admin", "0001", "adminpass", "admin")`. */
  function AdminTable(): (t: UserTable)
    ensures t.Valid() && t.ids == [AdminId]
  {
    UserTable([AdminId], map[AdminId := NewUser("admin", AdminId, AdminPassword, "admin")])
  }

  /** After bootstrap there is one record, the administrator, and only its credentials pass. */
  lemma BootstrapAdmin()
    ensures AdminTable().Valid() && |AdminTable().records| == 1
    ensures AdminTable().records[AdminId] == UserRecord("admin", "0001", "adminpass", "admin", 0, 0)
    ensures forall id, pw :: Authenticate(AdminTable(), id, pw) <==> id == AdminId && pw == AdminPassword
  {
    assert AdminTable().records.Keys == {AdminId};
  }

  /**
   * Right after bootstrap the administrator can list the users (itself only)
   * and read its own points, which start at 0; the requests are written as a
   * client writes them, tokens joined by single spaces.
   */
  lemma BootstrapRequests(options: map<string, string>, banned: map<string, int>, ip: string)
    requires ip !in banned
    ensures HandleRequest(AdminTable(), options, banned,
                          JoinSpaced([GetUserList, AdminId, AdminPassword]), ip) == Reply(AdminId)
    ensures HandleRequest(AdminTable(), options, banned,
                          JoinSpaced([GetUserPoints, AdminId, AdminPassword, AdminId]), ip) == Reply("0")
  {
    AdminRequestTokens();
    SplitJoinSpaced([GetUserList, AdminId, AdminPassword]);
    var points := [GetUserPoints, AdminId, AdminPassword, AdminId];
    SplitJoinSpaced(points);
    assert points[1..] == [AdminId, AdminPassword, AdminId];
  }

  lemma AdminRequestTokens()
    ensures AllTokens([GetUserList, AdminId, AdminPassword])
    ensures AllTokens([GetUserPoints, AdminId, AdminPassword, AdminId])
  {
    UserListIsToken();
    UserPointsIsToken();
    assert IsToken(AdminId) && IsToken(AdminPassword);
  }

  // ---------------------------------------------------------------------------
  // The server object
  // ---------------------------------------------------------------------------

  class Server {
    const maxConnections: int
    const rateLimit: int
    const banTime: int
    var running: bool
    var clients: map<string, nat>          // address -> connection handle
    var bannedIps: map<string, int>        // address -> time of the ban
    var requestCounts: map<string, nat>    // address -> messages in the current window
    var users: UserTable
    var options: map<string, string>

    ghost predicate Valid()
      reads this
    {
      users.Valid() && WithinCapacity(clients, maxConnections)
    }

    /** `__init__`, given what `load_users` and `load_options` returned. */
    constructor (maxConnections: int, rateLimit: int, banTime: int,
                 loadedUsers: UserTable, loadedOptions: map<string, string>)
      requires loadedUsers.Valid()
      ensures Valid()
      ensures this.maxConnections == maxConnections && this.rateLimit == rateLimit && this.banTime == banTime
      ensures running && clients == map[] && bannedIps == map[] && requestCounts == map[]
      ensures users == if |loadedUsers.ids| == 0 then AdminTable() else loadedUsers
      ensures options == loadedOptions
    {
      this.maxConnections := maxConnections;
      this.rateLimit := rateLimit;
      this.banTime := banTime;
      running := true;
      clients := map[];
      bannedIps := map[];
      requestCounts := map[];
      options := loadedOptions;
      if |loadedUsers.ids| == 0 {
        BootstrapAdmin();
        users := AdminTable();
      } else {
        users := loadedUsers;
      }
    }

    /** One pass of `reset_request_counts`: the window closes for every address at once. */
    method Reset()
      modifies this`requestCounts
      ensures requestCounts == map[]
    {
      requestCounts := map[];
    }

    /** `stop()`, apart from its messages to the clients and closing the listener. */
    method Stop()
      modifies this`running
      ensures !running
    {
      running := false;
    }

    /** The `with self.lock` block of `handle_client`. */
    method RecordRequest(ip: string, now: int) returns (allowed: bool)
      modifies this`requestCounts, this`bannedIps
      ensures requestCounts == old(requestCounts)[ip := Count(old(requestCounts), ip) + 1]
      ensures allowed <==> Count(old(requestCounts), ip) + 1 <= rateLimit
      ensures bannedIps == if allowed then old(bannedIps) else old(bannedIps)[ip := now]
      ensures Counted(requestCounts, bannedIps, allowed) == CountRequest(old(requestCounts), old(bannedIps), rateLimit, ip, now)
    {
      var c := Count(requestCounts, ip) + 1;
      requestCounts := requestCounts[ip := c];
      allowed := c <= rateLimit;
      if !allowed {
        bannedIps := bannedIps[ip := now];
      }
    }

    /** One iteration of `accept_clients` for a connection from `ip`. */
    method AcceptOne(ip: string, conn: nat) returns (a: Admission)
      requires Valid()
      modifies this`clients
      ensures Valid()
      ensures a == Admit(old(clients), bannedIps, maxConnections, ip)
      ensures clients == if a == Admitted then old(clients)[ip := conn] else old(clients)
    {
      if ip in bannedIps {
        a := RejectedBanned;
      } else if |clients| >= maxConnections {
        a := RejectedFull;
      } else {
        a := Admitted;
        clients := clients[ip := conn];
      }
      RegisterWithinCapacity(old(clients), bannedIps, maxConnections, Arrival(ip, conn));
    }

    /** `accept_clients` over the connections `accept` returns, while `running`. */
    method AcceptClients(arrivals: seq<Arrival>) returns (results: seq<Admission>)
      requires Valid()
      modifies this`clients
      ensures Valid()
      ensures var l := AcceptAll(old(clients), bannedIps, maxConnections, if running then arrivals else []);
        results == l.results && clients == l.clients
    {
      results := [];
      if !running {
        return;
      }
      ghost var total := AcceptAll(clients, bannedIps, maxConnections, arrivals);
      var i := 0;
      while i < |arrivals|
        invariant 0 <= i <= |arrivals|
        invariant Valid()
        invariant var l := AcceptAll(clients, bannedIps, maxConnections, arrivals[i..]);
          total.clients == l.clients && total.results == results + l.results
      {
        ghost var rest := AcceptAll(Register(clients, Admit(clients, bannedIps, maxConnections, arrivals[i].ip), arrivals[i]),
                                    bannedIps, maxConnections, arrivals[i + 1..]);
        assert arrivals[i..][0] == arrivals[i] && arrivals[i..][1..] == arrivals[i + 1..];
        var a := AcceptOne(arrivals[i].ip, arrivals[i].conn);
        AcceptAllResume(results, a, rest);
        results := results + [a];
        i := i + 1;
      }
      assert results + [] == results;
    }

    /**
     * The `while self.running` loop of `handle_client` while the server runs:
     * receive, count under the lock, then dispatch and send, until the peer
     * closes, the address is banned or `handle_request` raises.
     */
    method ServeMessages(ip: string, inbox: seq<Packet>) returns (sent: seq<string>, exit: Exit)
      modifies this`requestCounts, this`bannedIps
      ensures var s := Serve(rateLimit, ip, old(requestCounts), old(bannedIps), inbox,
                             Answers(users, options, old(bannedIps), ip, inbox));
        sent == s.sent && exit == s.exit && requestCounts == s.counts && bannedIps == s.banned
    {
      ghost var answers := Answers(users, options, bannedIps, ip, inbox);
      ghost var total := Serve(rateLimit, ip, requestCounts, bannedIps, inbox, answers);
      sent := [];
      var i := 0;
      while i < |inbox| && |inbox[i].data| > 0
        invariant 0 <= i <= |inbox|
        invariant users == old(users) && options == old(options) && bannedIps == old(bannedIps)
        invariant total == Resume(sent, i, Serve(rateLimit, ip, requestCounts, bannedIps, inbox[i..], answers[i..]))
      {
        ghost var here := Serve(rateLimit, ip, requestCounts, bannedIps, inbox[i..], answers[i..]);
        ServeAt(rateLimit, ip, requestCounts, bannedIps, inbox, answers, i);
        var allowed := RecordRequest(ip, inbox[i].at);
        if !allowed {
          ResumeNothing(sent, i, here);
          return sent, RateExceeded;
        }
        var outcome := HandleRequest(users, options, bannedIps, inbox[i].data, ip);
        AnswerAt(users, options, bannedIps, ip, inbox, i);
        if outcome.Fault? {
          ResumeNothing(sent, i, here);
          return sent, Faulted;
        }
        ResumeResume(sent, i, [outcome.text + "\n"], 1,
                     Serve(rateLimit, ip, requestCounts, bannedIps, inbox[i + 1..], answers[i + 1..]));
        sent := sent + [outcome.text + "\n"];
        i := i + 1;
      }
      exit := PeerClosed;
    }

    /**
     * `handle_client(client, ip)` for a connection whose peer sends `inbox`,
     * started at clock reading `start`.
     */
    method HandleClient(ip: string, start: int, inbox: seq<Packet>) returns (sent: seq<string>, exit: Exit)
      requires Valid()
      modifies this`requestCounts, this`bannedIps, this`clients
      ensures Valid()
      ensures old(BannedAt(bannedIps, ip, start, banTime)) ==>
        && sent == [BannedOnConnect] && exit == RefusedBanned
        && requestCounts == old(requestCounts) && bannedIps == old(bannedIps) && clients == old(clients)
      ensures !old(BannedAt(bannedIps, ip, start, banTime)) && !running ==>
        && sent == [] && exit == Stopped
        && requestCounts == old(requestCounts) && bannedIps == old(bannedIps) && clients == old(clients) - {ip}
      ensures !old(BannedAt(bannedIps, ip, start, banTime)) && running ==>
        var s := Serve(rateLimit, ip, old(requestCounts), old(bannedIps), inbox,
                       Answers(users, options, old(bannedIps), ip, inbox));
        && sent == s.sent && exit == s.exit
        && requestCounts == s.counts && bannedIps == s.banned && clients == old(clients) - {ip}
    {
      if ip in bannedIps && start - bannedIps[ip] < banTime {
        // Returns before the loop, and so without removing `ip` from the registry.
        sent, exit := [BannedOnConnect], RefusedBanned;
        return;
      }
      if running {
        // Nothing in this sequential model clears `running` while the loop runs.
        sent, exit := ServeMessages(ip, inbox);
      } else {
        sent, exit := [], Stopped;
      }
      if ip in clients {
        clients := clients - {ip};
      }
      assert clients.Keys <= old(clients).Keys;
    }
  }
}

=== FILE: text.dfy ===
/**
 * The string handling the server relies on, as Python defines it:
 * `str.split()` with no separator (runs of whitespace), `"//".join(...)`
 * with its inverse `str.split("//")`, and `str(n)` for an integer.
 */
module Text {

  datatype Option<T> = None | Some(value: T)

  /** Python's `str.isspace()` for one character: the separators `str.split()` skips. */
  predicate IsSpace(c: char)
  {
    || ('\t' <= c <= '\r')                 // U+0009 .. U+000D
    || ('\U{1C}' <= c <= ' ')              // U+001C .. U+0020
    || c == '\U{85}' || c == '\U{A0}' || c == '\U{1680}'
    || ('\U{2000}' <= c <= '\U{200A}')
    || c == '\U{2028}' || c == '\U{2029}' || c == '\U{202F}'
    || c == '\U{205F}' || c == '\U{3000}'
  }

  /** A token as `str.split()` yields it: non-empty, without whitespace. */
  predicate IsToken(t: string)
  {
    |t| > 0 && forall i :: 0 <= i < |t| ==> !IsSpace(t[i])
  }

  predicate AllTokens(toks: seq<string>)
  {
    forall k :: 0 <= k < |toks| ==> IsToken(toks[k])
  }

  /** The longest prefix of `s` that holds no whitespace. */
  function Word(s: string): (w: string)
    ensures |w| <= |s| && w == s[..|w|]
    ensures forall i :: 0 <= i < |w| ==> !IsSpace(w[i])
    ensures |w| < |s| ==> IsSpace(s[|w|])
  {
    if s == [] || IsSpace(s[0]) then [] else [s[0]] + Word(s[1..])
  }

  /** `s.split()`: the maximal runs of non-whitespace characters, in order. */
  function Split(s: string): (toks: seq<string>)
    ensures AllTokens(toks)
    decreases |s|
  {
    if s == [] then []
    else if IsSpace(s[0]) then Split(s[1..])
    else
      var w := Word(s);
      [w] + Split(s[|w|..])
  }

  /** `" ".join(toks)`: how a client writes a request line. */
  function JoinSpaced(toks: seq<string>): string
  {
    if |toks| == 0 then ""
    else if |toks| == 1 then toks[0]
    else toks[0] + " " + JoinSpaced(toks[1..])
  }

  /** A line splits into no token exactly when every character of it is whitespace. */
  lemma {:induction false} SplitEmptyIff(s: string)
    ensures Split(s) == [] <==> forall i :: 0 <= i < |s| ==> IsSpace(s[i])
    decreases |s|
  {
    if s != [] && IsSpace(s[0]) {
      SplitEmptyIff(s[1..]);
      assert forall i :: 1 <= i < |s| ==> s[i] == s[1..][i - 1];
    }
  }

  lemma {:induction false} WordOfToken(t: string, rest: string)
    requires IsToken(t)
    requires rest == [] || IsSpace(rest[0])
    ensures Word(t + rest) == t
    decreases |t|
  {
    if |t| > 1 {
      assert (t + rest)[1..] == t[1..] + rest;
      WordOfToken(t[1..], rest);
    } else {
      assert (t + rest)[1..] == rest;
    }
  }

  /** A token followed by whitespace (or nothing) splits off as the first token. */
  lemma SplitToken(t: string, rest: string)
    requires IsToken(t)
    requires rest == [] || IsSpace(rest[0])
    ensures Split(t + rest) == [t] + Split(rest)
  {
    WordOfToken(t, rest);
    assert (t + rest)[|t|..] == rest;
  }

  /** Splitting a space-joined list of tokens gives back the tokens. */
  lemma {:induction false} SplitJoinSpaced(toks: seq<string>)
    requires AllTokens(toks)
    ensures Split(JoinSpaced(toks)) == toks
    decreases |toks|
  {
    if |toks| == 1 {
      SplitToken(toks[0], "");
      assert toks[0] + "" == toks[0];
    } else if |toks| > 1 {
      var rest := JoinSpaced(toks[1..]);
      assert toks[0] + " " + rest == toks[0] + (" " + rest);
      SplitToken(toks[0], " " + rest);
      assert (" " + rest)[1..] == rest;
      SplitJoinSpaced(toks[1..]);
    }
  }

  // ---------------------------------------------------------------------------
  // "//".join and str.split("//")
  // ---------------------------------------------------------------------------

  /** `"//".join(ids)`. */
  function JoinSlashes(ids: seq<string>): (r: string)
    ensures |ids| == 0 ==> r == ""
    ensures |ids| > 0 ==> |ids[0]| <= |r| && r[..|ids[0]|] == ids[0]
    ensures |ids| > 1 ==> |ids[0]| + 2 <= |r| && r[|ids[0]|..|ids[0]| + 2] == "//"
  {
    if |ids| == 0 then ""
    else if |ids| == 1 then ids[0]
    else ids[0] + "//" + JoinSlashes(ids[1..])
  }

  /** `s.split("//")`: cut at each leftmost non-overlapping "//"; always at least one piece. */
  function SplitSlashes(s: string): (parts: seq<string>)
    ensures |parts| >= 1
  {
    if |s| < 2 then [s]
    else if s[0] == '/' && s[1] == '/' then [""] + SplitSlashes(s[2..])
    else
      var r := SplitSlashes(s[1..]);
      [[s[0]] + r[0]] + r[1..]
  }

  /** `s` holds no "//". */
  predicate NoDoubleSlash(s: string)
  {
    forall i :: 0 <= i < |s| - 1 ==> !(s[i] == '/' && s[i + 1] == '/')
  }

  /** Ids that "//".join keeps apart: none holds "//", and none but the last ends in '/'. */
  predicate SeparableIds(ids: seq<string>)
  {
    && (forall k :: 0 <= k < |ids| ==> NoDoubleSlash(ids[k]))
    && (forall k :: 0 <= k < |ids| - 1 ==> ids[k] == [] || ids[k][|ids[k]| - 1] != '/')
  }

  lemma {:induction false} SplitSlashesPlain(x: string)
    requires NoDoubleSlash(x)
    ensures SplitSlashes(x) == [x]
    decreases |x|
  {
    if |x| >= 2 {
      SplitSlashesPlain(x[1..]);
      assert [x[0]] + x[1..] == x;
    }
  }

  lemma {:induction false} SplitSlashesPrefix(x: string, rest: string)
    requires NoDoubleSlash(x)
    requires x == [] || x[|x| - 1] != '/'
    ensures SplitSlashes(x + "//" + rest) == [x] + SplitSlashes(rest)
    decreases |x|
  {
    var s := x + "//" + rest;
    if x == [] {
      assert s[2..] == rest;
    } else {
      assert s[1..] == x[1..] + "//" + rest;
      assert !(s[0] == '/' && s[1] == '/');
      SplitSlashesPrefix(x[1..], rest);
      assert [x[0]] + x[1..] == x;
    }
  }

  /** Splitting the "//"-joined ids on "//" gives back exactly the ids. */
  lemma {:induction false} SplitJoinSlashes(ids: seq<string>)
    requires |ids| > 0 && SeparableIds(ids)
    ensures SplitSlashes(JoinSlashes(ids)) == ids
    decreases |ids|
  {
    if |ids| == 1 {
      SplitSlashesPlain(ids[0]);
    } else {
      var rest := ids[1..];
      assert forall k :: 0 <= k < |rest| ==> rest[k] == ids[k + 1];
      SplitSlashesPrefix(ids[0], JoinSlashes(rest));
      SplitJoinSlashes(rest);
    }
  }

  /** Without the conditions the round trip fails: an id ending in '/' merges with the delimiter. */
  lemma TrailingSlashBreaksSplit()
    ensures JoinSlashes(["a/", "b"]) == "a///b"
    ensures SplitSlashes(JoinSlashes(["a/", "b"])) == ["a", "/b"]
  {
    assert "///b"[2..] == "/b" && "/b"[1..] == "b";
    assert SplitSlashes("b") == ["b"];
    assert ['/'] + "b" == "/b";
    assert SplitSlashes("/b") == ["/b"];
    assert SplitSlashes("///b") == ["", "/b"];
    assert "a/" + "//" + "b" == "a///b";
    assert "a///b"[1..] == "///b";
    assert ['a'] + "" == "a";
  }

  /** ... and an empty list joins to "", which splits into one empty piece. */
  lemma EmptyListSplitsToOnePiece()
    ensures SplitSlashes(JoinSlashes([])) == [""]
  {
  }

  // ---------------------------------------------------------------------------
  // str(n) for an integer, and its inverse
  // ---------------------------------------------------------------------------

  predicate IsDigit(c: char) { '0' <= c <= '9' }

  predicate AllDigits(s: string)
  {
    forall i :: 0 <= i < |s| ==> IsDigit(s[i])
  }

  function DigitChar(d: nat): (c: char)
    requires d < 10
    ensures IsDigit(c) && (c as int) - ('0' as int) == d
  {
    ('0' as int + d) as char
  }

  /** The decimal digits of `n`, most significant first, without leading zeros. */
  function NatToDecimal(n: nat): (s: string)
    ensures |s| > 0 && AllDigits(s)
    ensures |s| > 1 ==> s[0] != '0'
    decreases n
  {
    if n < 10 then [DigitChar(n)] else NatToDecimal(n / 10) + [DigitChar(n % 10)]
  }

  /** `str(n)`: a '-' sign for negative numbers, then the digits. */
  function IntToDecimal(n: int): (s: string)
    ensures |s| > 0 && (s[0] == '-' <==> n < 0)
    ensures n < 0 ==> |s| > 1 && AllDigits(s[1..])
    ensures n >= 0 ==> AllDigits(s)
  {
    if n < 0 then "-" + NatToDecimal(-n) else NatToDecimal(n)
  }

  /** The value of a non-empty digit string. */
  function DecimalValue(s: string): nat
    requires |s| > 0 && AllDigits(s)
    decreases |s|
  {
    var last := (s[|s| - 1] as int) - ('0' as int);
    if |s| == 1 then last else DecimalValue(s[..|s| - 1]) * 10 + last
  }

  /** `int(s)` on the strings `str` produces: an optional '-' and digits. */
  function ParseInt(s: string): Option<int>
  {
    if |s| > 1 && s[0] == '-' && AllDigits(s[1..]) then Some(-(DecimalValue(s[1..]) as int))
    else if |s| > 0 && AllDigits(s) then Some(DecimalValue(s))
    else None
  }

  lemma {:induction false} DecimalValueOf(n: nat)
    ensures DecimalValue(NatToDecimal(n)) == n
    decreases n
  {
    if n >= 10 {
      var s := NatToDecimal(n);
      assert s[..|s| - 1] == NatToDecimal(n / 10);
      DecimalValueOf(n / 10);
    }
  }

  /** The decimal text of an integer is one token: a sign and digits hold no whitespace. */
  lemma DecimalIsToken(n: int)
    ensures IsToken(IntToDecimal(n))
  {
    var s := IntToDecimal(n);
    forall i | 0 <= i < |s|
      ensures !IsSpace(s[i])
    {
      if n < 0 && i > 0 {
        assert s[i] == s[1..][i - 1];
      }
    }
  }

  /** Reading back the decimal text of an integer yields that integer. */
  lemma DecimalRoundTrip(n: int)
    ensures IsToken(IntToDecimal(n))
    ensures ParseInt(IntToDecimal(n)) == Some(n)
  {
    DecimalIsToken(n);
    var d := if n < 0 then -n else n;
    DecimalValueOf(d);
    var s := IntToDecimal(n);
    if n < 0 {
      assert s[1..] == NatToDecimal(d);
    }
  }
}
